=== FILE: README.md ===
# Course recommender: query pipeline model

This project models the part of the course recommender's `main_app` (main.py) that runs
each time a student presses the search button. The pipeline has these steps:

- The query is lower-cased.
- For each negation marker ("tidak suka", "benci", "gak suka", "anti") in turn, the first token after the marker's first occurrence is found, and its non-overlapping occurrences are deleted from the query.
- The result is expanded with the domain terms of every interest keyword it mentions.
- The catalog is narrowed to the program and semester chosen in the sidebar ("Semua" means no filter).
- The rows in scope are scored against the expanded query.
- Rows scoring above 0.15 are kept, sorted best first, and the first five are shown.
- Each card carries its program description and a study tip.
- The generative assistant is consulted in two cases:
  - in place of the catalog, when nothing clears the threshold;
  - for an extra opinion, when cards are shown and the raw query reads as a question.

Modules, following the program's structure:

- `Results`: `Option`, `Result` and the one Python error the negation step can raise (`IndexError`).
- `PyStr`: the Python string operations the code relies on, defined from scratch and related to each other by lemmas.
  - The operations are `lower`, `in`, `split(sep)`, `replace`, `strip` and `split()`.
  - The lemmas relate them to each other, for example that `replace` is split-then-join.
- `Query`: negation stripping (`StripMarker`, `StripAll`, `Normalize`) and keyword expansion (`Expand`).
- `Seqs`: an order-preserving `Filter`, the boolean-mask indexing `df[mask]`.
- `Catalog`: a catalog row, `combined_features`, and the two sidebar filters.
- `Ranking`: the threshold / descending sort / top-five policy.
- `Lookup`: `get_program_description` and `get_course_advice`.
- `App`: the whole request (`Respond`) and its decision table (`Search`, `Decide`). A request ends in one of three screens:
  - `Idle`;
  - `Crashed`;
  - a `Page` holding the ranked rows (each rendered as a card by `Cards`) plus the prompts sent to the assistant.

Behaviours of the code that the model keeps as written:

- **Empty catalog.** `main_app` returns before the sidebar and the search when the loaded table is empty (main.py, lines 140-141). `Respond` is then `Idle` whatever the query.
- **Blank segment after a marker.** `parts[1]` runs from the marker's first occurrence to its next occurrence, or to the end of the query. When only whitespace lies there, `parts[1].strip().split()[0]` indexes an empty list and raises `IndexError`. Examples are a marker at the end of the query ("saya benci") and a marker repeated at once ("benci benci x"). The model returns `Err(IndexError)`, and the request ends as `Crashed`.
- **Ties.** `sort_values` with default arguments is not a stable sort, so nothing is promised about the order of equal scores.
- **Deleted word can survive.** `replace` removes non-overlapping occurrences left to right, and the pieces it leaves can meet to form a new occurrence. `PyStr.DeletionCanSplice` exhibits such a case, so the model promises the deletion itself, not absence afterwards.
- **Fixed constants.** The threshold and the cut are the literals 0.15 and 5 in the code, not parameters.
- **Empty scope.** When the sidebar filters leave no row, the code shows nothing at all: no cards, no fallback and no extra opinion.

## Model

| member | source | states |
|---|---|---|
| PyStr.Lower | main.py:173 | the lower-cased query has the same length, no upper-case letter is left, and only letters A-Z change (each to its lower-case form) |
| PyStr.Find | main.py:178 | the result is the first position at or after the start where the pattern occurs, or none when it occurs nowhere from there on |
| PyStr.ContainsOccurs | main.py:178 | `w in s` holds exactly when `w` occurs at some position of `s` |
| PyStr.Split | main.py:179 | `s.split(sep)` always yields at least one piece |
| PyStr.SplitJoin | main.py:179 | joining the pieces of `s.split(sep)` with `sep` gives `s` back |
| PyStr.SplitPiecesFree | main.py:179 | no piece of `s.split(sep)` contains `sep` |
| PyStr.CountPositive | main.py:178-179 | the pattern occurs exactly when the split yields at least two pieces |
| PyStr.Replace | main.py:182 | deleting (replacing with the empty string) never lengthens the text, and replacing with a string of the same length keeps the length |
| PyStr.ReplaceIsJoinOfSplit | main.py:182 | `s.replace(w, v)` equals the pieces of `s.split(w)` joined with `v` |
| PyStr.ReplaceLength | main.py:182 | replacing changes the length by the length difference once per occurrence that `split` counts |
| PyStr.ReplaceAbsent | main.py:182 | replacing a pattern that does not occur leaves the string unchanged |
| PyStr.DeletionCanSplice | main.py:182 | deleting "ab" from "aabb" yields "ab", which still contains the deleted word |
| PyStr.TrimStart | main.py:181 | `lstrip` removes exactly a leading run of whitespace and keeps the rest as a suffix |
| PyStr.TrimEnd | main.py:181 | `rstrip` removes exactly a trailing run of whitespace and keeps the rest as a prefix |
| PyStr.WordsShape | main.py:181 | `split()` yields non-empty words containing no whitespace |
| PyStr.WordsEmpty | main.py:181 | `split()` yields no word exactly when the text is all whitespace |
| PyStr.WordsConcat | main.py:181 | the words, in order and glued together, are the text with its whitespace characters removed |
| Query.SecondPiece | main.py:178-180 | when the marker occurs, the split has at least two pieces, so the `len(parts) > 1` guard always passes, and the second piece is the text between the first occurrence and the next one (or the end) |
| Query.FirstToken | main.py:181 | taking the first word fails with IndexError exactly when the segment is all whitespace; otherwise the word is the segment's first whitespace-delimited token |
| Query.StripMarker | main.py:177-182 | an absent marker leaves the query alone; a present one crashes exactly when only whitespace lies between its first occurrence and its next occurrence (or the end of the query); otherwise the result is the query with the first token after the marker replaced by nothing |
| Query.MarkerAtEndCrashes | main.py:179-181 | a marker whose first occurrence ends the query leaves no word to take, so the step raises IndexError |
| Query.MarkerRepeatedCrashes | main.py:179-181 | when only whitespace lies between the marker's first and second occurrences, the second piece of the split is blank, so the step raises IndexError even though a word follows later in the query |
| Query.MarkerDeletesToken | main.py:178-182 | when the segment between the marker's first occurrence and its next one is not blank, the step succeeds, and the word it deletes is the first token after the marker and occurs in the query. The result is the pieces around that word's occurrences glued together. It is shorter by the word's length times the number of occurrences, which is at least one. |
| Query.StripAllNoMarker | main.py:176-182 | when no marker occurs, the negation loop leaves the text unchanged |
| Query.StripMarkerShrinks | main.py:177-182 | one marker step never lengthens the text |
| Query.StripAll | main.py:176-182 | the negation loop never lengthens the text |
| Query.Normalize | main.py:173-182 | the processed query is never longer than the raw one |
| Query.NormalizeWithoutMarker | main.py:173-182 | a query without any negation marker is only lower-cased |
| Query.Expand | main.py:185-188 | the expanded query starts with the processed query |
| Query.ExpansionAt | main.py:186-188 | each table entry contributes its block in table order, between the blocks of the entries before it and those after it |
| Query.ExpansionDependsOnlyOnMatches | main.py:186-188 | two queries that mention the same keywords receive the same expansion text |
| Query.ExpandNoMatch | main.py:185-188 | a query that mentions no keyword is not expanded |
| Query.ExpandIncludesMatch | main.py:186-188 | every mentioned keyword's whole term list, preceded by a space, appears in the expanded query |
| Seqs.Filter | main.py:193 | boolean-mask indexing keeps exactly the elements satisfying the mask |
| Seqs.FilterMultiplicity | main.py:193 | each kept element keeps all its copies and each dropped element loses all of them |
| Seqs.FilterIsSubsequence | main.py:193 | the kept elements stay in their original order |
| Seqs.FilterFilter | main.py:192-195 | filtering twice equals filtering once by the conjunction of the masks |
| Catalog.Load | main.py:77 | `combined_features` is the course name, a space and the program name, so it is never empty and both names can be read back from it |
| Catalog.ByProgram | main.py:192-193 | "Semua" keeps every row; any other selection keeps exactly the rows of that program |
| Catalog.BySemester | main.py:194-195 | "Semua" keeps every row; any other selection keeps exactly the rows of that semester |
| Catalog.SelectMembers | main.py:191-195 | a row is in scope exactly when it is in the catalog and matches every selection that is not "Semua" |
| Catalog.SelectIsOneMask | main.py:191-195 | the two successive filters equal a single pass with the combined mask |
| Catalog.SelectKeepsOrder | main.py:191-195 | rows in scope keep their catalog order and their multiplicity |
| Ranking.Insert | main.py:206 | inserting into a descending sequence keeps it descending and adds exactly one element |
| Ranking.SortDesc | main.py:206 | the descending sort returns a descending permutation of its input |
| Ranking.Rank | main.py:206 | at most five rows are recommended |
| Ranking.RankBounds | main.py:206 | every recommendation is an input row scoring above 0.15 |
| Ranking.RankSize | main.py:206 | there are five recommendations, or all passing rows when fewer pass; there are none exactly when no row scores above 0.15 |
| Ranking.RankOrder | main.py:206 | recommendations are in descending score order, and no passing row left out scores above a recommended one |
| Lookup.FirstKeyIn | main.py:84-85 | the index found is that of the first table key contained in the text, or none when no key is |
| Lookup.FirstValueIn | main.py:83-87 | the description is that of the first key, in table order, contained in the program name, or the default when none is |
| Lookup.AdviceCategory | main.py:89-100 | the tip category is the first, in the order numeric, coding, design, business, whose words occur in the lower-cased course name, and general when none does |
| Lookup.AdviceIgnoresCase | main.py:90 | names that lower-case alike receive the same tip |
| Lookup.AdviceOfLowered | main.py:90 | a name and its lower-cased form receive the same tip |
| App.ScoreRows | main.py:202-204 | every row in scope receives, in row order, the score the scorer gives it against the rows in scope and the expanded query |
| App.Respond | main.py:140-259 | nothing happens exactly when the catalog is empty, the button is not pressed or the query is empty; a page holds at most five recommendations, and the assistant only ever receives the raw query |
| App.MarkerWithoutWordCrashes | main.py:171-182 | with a non-empty catalog, a non-empty query submitted with the button ends as `Crashed` exactly when negation stripping fails, the only error the model has |
| App.Decide | main.py:198-256 | with no rows in scope, an empty page; otherwise the page shows the recommendations, falls back to the assistant exactly when there are none, and asks it for an extra opinion exactly when there are some and the raw query reads as a question; the assistant is asked at most once, with the raw query |
| App.Search | main.py:191-256 | the result is a page with at most five recommendations; the assistant is asked at most once, with the raw query |
| App.HybridDecision | main.py:198-256 | with no rows in scope nothing is shown; the assistant replaces the catalog exactly when rows are in scope and none scores above 0.15; it adds an extra opinion exactly when recommendations are shown and the raw query contains a question word; it always receives the raw query |
| App.RecommendFacts | main.py:202-206 | at most five recommendations, best first, each a row in scope scoring above 0.15 with the score the scorer gave it |
| App.CardsShown | main.py:191-214 | the page shows at most five recommendations in descending score order. Each is a row in scope, with the score the scorer gave it over the rows in scope, and that score is above 0.15. Catalog.SelectMembers says which catalog rows are in scope. |
| App.Cards | main.py:214-233 | one card per recommendation, in order, each showing its row's program description and course tip |

## Left out

- TF-IDF vectorisation and cosine similarity (lines 199-202) are not modelled. The scores come from a `Scorer` parameter that maps the rows in scope, the expanded query and one row to a real number. Floating point is modelled as exact reals.
- App.MarkerWithoutWordCrashes: its "exactly when" covers only the errors the model has. The vectoriser's `ValueError` at line 200 is not modelled. `fit_transform` raises it when no row in scope has a token of two or more word characters, for example a single row with course "A" and program "B". The `Scorer` parameter is total, so the model shows a page with the fallback prompt where the program aborts.
- `ask_gemini` and the network call behind it are not modelled. The model records only whether the assistant is asked and with which text.
- The `Semester` column is modelled as an opaque string label compared by equality, whatever type the table holds it in. The sidebar's option lists (lines 144-150) are not modelled: the chosen program and semester are parameters.
- The `combined_features` text is built by `Catalog.Load` but read by nothing in the model; the `Scorer` parameter stands in for the vectoriser reading it.
- `load_data` is not modelled: reading the CSV file, `dropna` on the course column, and the missing-file error. A catalog is a sequence of `Course` rows. `Catalog.Load` builds one row's `combined_features`.
- The Streamlit page is not modelled: layout, CSS, the success/warning messages, the `int(score*100)` percentage and the emoji decoration of cards.
- The bookmark sidebar and the save buttons are not modelled. They are session state outside the query pipeline.
- `str.lower` and `str.isspace` are modelled over ASCII only. Letters outside A-Z are left as they are. Whitespace is tab, newline, vertical tab, form feed, carriage return, 0x1C-0x1F and space. Python also lower-cases and recognises non-ASCII characters.
- Ranking.SortDesc: promises no order among equal scores, because `sort_values` with default arguments is not stable.
- Query.StripMarker: does not promise that the negated word is absent afterwards, because `replace` can splice a new occurrence (see `PyStr.DeletionCanSplice`).
- `Lookup.ProgramDescription` and `Lookup.CourseAdvice` apply `FirstValueIn` to the description table and `Tip` to `AdviceCategory`. Their contents are the source's tables verbatim. No separate lemma is stated about them.

=== FILE: app.dfy ===
/**
 * The request handling of `main_app` (main.py, lines 171-259) with the page
 * reduced to what it decides: which courses are shown, with which program
 * description and tip, and whether the generative assistant is asked, either
 * as a fallback or for an extra opinion.
 */
module App {
  import opened Results
  import opened PyStr
  import opened Query
  import opened Catalog
  import opened Ranking
  import opened Lookup

  /** The relevance scorer (TF-IDF over the rows in scope, then cosine
      similarity): given the corpus, the expanded query and one of its rows,
      that row's score. Identical rows get identical scores. */
  type Scorer = (seq<Course>, string, Course) -> real

  /** One recommendation card with its expander contents. */
  datatype Card = Card(course: Course, score: real, programInfo: string, advice: string)

  /** What a request shows. */
  datatype Screen =
    | Idle                          // no search: empty catalog, button not pressed or empty query
    | Crashed(error: PyError)       // the negation step raised
    | Page(recs: seq<Scored>,       // the recommendations, best first, one card each
           fallbackPrompt: Option<string>,  // query sent to the assistant when nothing matched
           extraPrompt: Option<string>)     // query sent to the assistant for an extra opinion

  /** Words whose presence makes the query read as a question. */
  const QuestionWords: seq<string> := ["apa", "bagaimana", "kenapa", "tips", "cara"]

  /** The query reads as a question: a question word is a substring of the
      lower-cased raw query. */
  predicate IsQuestion(userQuery: string) {
    MentionsAny(Lower(userQuery), QuestionWords)
  }

  /** Pairs each row in scope with its score (the `Similarity Score` column). */
  function ScoreRows(rows: seq<Course>, expanded: string, scorer: Scorer): (ms: seq<Scored>)
    ensures |ms| == |rows|
    ensures forall i :: 0 <= i < |rows| ==>
      ms[i].course == rows[i] && ms[i].score == scorer(rows, expanded, rows[i])
  {
    seq(|rows|, i requires 0 <= i < |rows| => Scored(rows[i], scorer(rows, expanded, rows[i])))
  }

  /** The card of one recommendation. */
  function MakeCard(m: Scored): Card {
    Card(m.course, m.score, ProgramDescription(m.course.program), CourseAdvice(m.course.name))
  }

  /** The cards of a page, in the order of its recommendations (main.py,
      lines 214-233): each shows its row's program description and course tip. */
  function Cards(recs: seq<Scored>): (cs: seq<Card>)
    ensures |cs| == |recs|
    ensures forall i :: 0 <= i < |recs| ==>
      && cs[i].course == recs[i].course
      && cs[i].score == recs[i].score
      && cs[i].programInfo == ProgramDescription(recs[i].course.program)
      && cs[i].advice == CourseAdvice(recs[i].course.name)
  {
    seq(|recs|, i requires 0 <= i < |recs| => MakeCard(recs[i]))
  }

  /** The recommendations for an expanded query over the rows in scope. */
  function Recommend(inScope: seq<Course>, expanded: string, scorer: Scorer): seq<Scored> {
    Rank(ScoreRows(inScope, expanded, scorer))
  }

  /** The decision table of lines 198-256 for a processed query: `inScope` are
      the rows left by the sidebar filters, `recs` the recommendations. The
      assistant is asked at most once, and always with the raw query. */
  function Decide(userQuery: string, inScope: seq<Course>, recs: seq<Scored>): (r: Screen)
    ensures r.Page?
    ensures inScope == [] ==> r == Page([], None, None)
    ensures inScope != [] ==> r.recs == recs
    ensures r.fallbackPrompt.Some? <==> inScope != [] && recs == []
    ensures r.extraPrompt.Some? <==> inScope != [] && recs != [] && IsQuestion(userQuery)
    ensures r.fallbackPrompt.Some? ==> r.fallbackPrompt.value == userQuery
    ensures r.extraPrompt.Some? ==> r.extraPrompt.value == userQuery
    ensures !(r.fallbackPrompt.Some? && r.extraPrompt.Some?)
  {
    if inScope == [] then Page([], None, None)
    else if recs == [] then Page([], Some(userQuery), None)
    else Page(recs, None, if IsQuestion(userQuery) then Some(userQuery) else None)
  }

  /** Everything after preprocessing, for the expanded query `expanded`: a page
      of at most five recommendations, asking the assistant at most once and
      only ever with the raw query. */
  function Search(catalog: seq<Course>, userQuery: string, expanded: string,
                  program: string, semester: string, scorer: Scorer): (r: Screen)
    ensures r.Page? && |r.recs| <= TopK
    ensures r.fallbackPrompt.Some? ==> r.fallbackPrompt.value == userQuery
    ensures r.extraPrompt.Some? ==> r.extraPrompt.value == userQuery
    ensures !(r.fallbackPrompt.Some? && r.extraPrompt.Some?)
  {
    var inScope := Select(catalog, program, semester);
    if inScope == [] then Decide(userQuery, inScope, [])
    else Decide(userQuery, inScope, Recommend(inScope, expanded, scorer))
  }

  /** One request (main.py, lines 140-141 and 171-259). Nothing happens when the
      catalog is empty, the button is not pressed or the query is empty;
      otherwise the request either aborts in the negation step or shows a page. */
  function Respond(catalog: seq<Course>, userQuery: string, clicked: bool,
                   program: string, semester: string, scorer: Scorer): (r: Screen)
    ensures r == Idle <==> catalog == [] || !clicked || userQuery == ""
    ensures r.Page? ==> |r.recs| <= TopK
    ensures r.Page? && r.fallbackPrompt.Some? ==> r.fallbackPrompt.value == userQuery
    ensures r.Page? && r.extraPrompt.Some? ==> r.extraPrompt.value == userQuery
  {
    if catalog == [] || !clicked || userQuery == "" then Idle
    else
      match Normalize(userQuery)
      case Err(e) => Crashed(e)
      case Ok(normalized) => Search(catalog, userQuery, Expand(normalized), program, semester, scorer)
  }

  /** A negation marker followed by only whitespace up to its next occurrence (or the
      end of the query) aborts the request with IndexError; nothing else aborts it. */
  lemma MarkerWithoutWordCrashes(catalog: seq<Course>, userQuery: string,
                                 program: string, semester: string, scorer: Scorer)
    requires catalog != [] && userQuery != ""
    ensures Respond(catalog, userQuery, true, program, semester, scorer).Crashed?
      <==> Normalize(userQuery).Err?
  {
  }

  /** The hybrid decision. With no rows in scope nothing is ranked and nothing
      is shown. Otherwise the assistant answers in place of the catalog exactly
      when no row in scope scores above 0.15, and adds an extra opinion exactly
      when there are recommendations and the raw query reads as a question. The
      assistant always receives the raw query, never the processed one. */
  lemma HybridDecision(catalog: seq<Course>, userQuery: string, expanded: string,
                       program: string, semester: string, scorer: Scorer)
    ensures var screen := Search(catalog, userQuery, expanded, program, semester, scorer);
      var inScope := Select(catalog, program, semester);
      && screen.Page?
      && (inScope == [] ==> screen == Page([], None, None))
      && (screen.fallbackPrompt.Some? <==>
            inScope != [] && forall i :: 0 <= i < |inScope| ==> scorer(inScope, expanded, inScope[i]) <= MinScore)
      && (screen.fallbackPrompt.Some? ==> screen.fallbackPrompt == Some(userQuery) && screen.recs == [])
      && (screen.extraPrompt.Some? <==> screen.recs != [] && IsQuestion(userQuery))
      && (screen.extraPrompt.Some? ==> screen.extraPrompt == Some(userQuery))
      && (screen.recs != [] <==> inScope != [] && screen.fallbackPrompt.None?)
  {
    var inScope := Select(catalog, program, semester);
    var ms := ScoreRows(inScope, expanded, scorer);
    RankSize(ms);
  }

  /** The recommendations: at most five, best first, each a row in scope
      scoring above 0.15, with the score the scorer gave it. */
  lemma RecommendFacts(inScope: seq<Course>, expanded: string, scorer: Scorer)
    ensures var recs := Recommend(inScope, expanded, scorer);
      && |recs| <= TopK
      && SortedDesc(recs)
      && forall i :: 0 <= i < |recs| ==>
           && recs[i].course in inScope
           && recs[i].score == scorer(inScope, expanded, recs[i].course)
           && recs[i].score > MinScore
  {
    var ms := ScoreRows(inScope, expanded, scorer);
    var recs := Rank(ms);
    RankBounds(ms);
    RankOrder(ms);
    forall i | 0 <= i < |recs|
      ensures recs[i].course in inScope && recs[i].score == scorer(inScope, expanded, recs[i].course)
    {
      assert recs[i] in multiset(ms);
      assert recs[i] in ms;
      var j :| 0 <= j < |ms| && ms[j] == recs[i];
    }
  }

  /** The recommendations shown: at most five, best first, each a row in scope
      whose score, given by the scorer over the rows in scope, is above 0.15. */
  lemma CardsShown(catalog: seq<Course>, userQuery: string, expanded: string,
                   program: string, semester: string, scorer: Scorer)
    ensures var screen := Search(catalog, userQuery, expanded, program, semester, scorer);
      var inScope := Select(catalog, program, semester);
      && screen.Page?
      && |screen.recs| <= TopK
      && (forall i, j :: 0 <= i < j < |screen.recs| ==> screen.recs[i].score >= screen.recs[j].score)
      && forall i :: 0 <= i < |screen.recs| ==>
           var m := screen.recs[i];
           && m.course in inScope
           && m.score == scorer(inScope, expanded, m.course)
           && m.score > MinScore
  {
    var inScope := Select(catalog, program, semester);
    if inScope != [] {
      RecommendFacts(inScope, expanded, scorer);
    }
  }
}

=== FILE: catalog.dfy ===
/**
 * Catalog rows and the sidebar filters of `main_app` (main.py, lines 77 and
 * 191-195).
 */
module Catalog {
  import opened Seqs

  /** One row of the course table: the `Course`, `Program` and `Semester`
      columns, plus `combined_features`, the text the relevance scorer reads. */
  datatype Course = Course(name: string, program: string, semester: string, combined: string)

  /** A row as loaded: `combined_features` is the course name, a space and the
      program name, so it is never empty and both names can be read back from it. */
  function Load(name: string, program: string, semester: string): (c: Course)
    ensures c.name == name && c.program == program && c.semester == semester
    ensures |c.combined| == |name| + 1 + |program| > 0
    ensures c.combined[..|name|] == name && c.combined[|name|] == ' '
    ensures c.combined[|name| + 1..] == program
  {
    Course(name, program, semester, name + " " + program)
  }

  /** The sidebar entry that disables a filter. */
  const AllLabel: string := "Semua"

  /** The row mask `df['Program'] == sel`. */
  function ProgramIs(sel: string): Course -> bool {
    (c: Course) => c.program == sel
  }

  /** The row mask `df['Semester'] == sel`. */
  function SemesterIs(sel: string): Course -> bool {
    (c: Course) => c.semester == sel
  }

  /** `df[df['Program'] == sel]`, skipped when `sel` is "Semua". */
  function ByProgram(rows: seq<Course>, sel: string): (r: seq<Course>)
    ensures sel == AllLabel ==> r == rows
    ensures sel != AllLabel ==> forall c :: c in r <==> c in rows && c.program == sel
  {
    if sel != AllLabel then Filter(rows, ProgramIs(sel)) else rows
  }

  /** `df[df['Semester'] == sel]`, skipped when `sel` is "Semua". */
  function BySemester(rows: seq<Course>, sel: string): (r: seq<Course>)
    ensures sel == AllLabel ==> r == rows
    ensures sel != AllLabel ==> forall c :: c in r <==> c in rows && c.semester == sel
  {
    if sel != AllLabel then Filter(rows, SemesterIs(sel)) else rows
  }

  /** The rows in scope for the chosen program and semester. */
  function Select(rows: seq<Course>, program: string, semester: string): seq<Course> {
    BySemester(ByProgram(rows, program), semester)
  }

  /** A row is in scope exactly when it is in the catalog and matches every
      selection that is not "Semua"; with both set to "Semua" nothing is dropped. */
  lemma SelectMembers(rows: seq<Course>, program: string, semester: string)
    ensures program == AllLabel && semester == AllLabel ==> Select(rows, program, semester) == rows
    ensures forall c :: c in Select(rows, program, semester) <==>
      && c in rows
      && (program == AllLabel || c.program == program)
      && (semester == AllLabel || c.semester == semester)
  {
  }

  /** Both sidebar selections as one row mask. */
  function InScope(program: string, semester: string): Course -> bool {
    (c: Course) => (program == AllLabel || c.program == program) && (semester == AllLabel || c.semester == semester)
  }

  /** The two successive filters select the same rows, in the same order, as one
      pass with the combined mask. */
  lemma SelectIsOneMask(rows: seq<Course>, program: string, semester: string)
    ensures Select(rows, program, semester) == Filter(rows, InScope(program, semester))
  {
    var mask := InScope(program, semester);
    if program == AllLabel && semester == AllLabel {
      FilterAll(rows, mask);
    } else if program == AllLabel {
      FilterSameTest(rows, SemesterIs(semester), mask);
    } else if semester == AllLabel {
      FilterSameTest(rows, ProgramIs(program), mask);
    } else {
      FilterFilter(rows, ProgramIs(program), SemesterIs(semester), mask);
    }
  }

  /** Kept rows keep their catalog order, and each kept row keeps its multiplicity. */
  lemma SelectKeepsOrder(rows: seq<Course>, program: string, semester: string)
    ensures Subsequence(Select(rows, program, semester), rows)
    ensures forall c :: c in Select(rows, program, semester) ==>
      multiset(Select(rows, program, semester))[c] == multiset(rows)[c]
  {
    SelectIsOneMask(rows, program, semester);
    FilterIsSubsequence(rows, InScope(program, semester));
    FilterMultiplicity(rows, InScope(program, semester));
  }
}

=== FILE: lookup.dfy ===
/**
 * The two lookup helpers shown beside each recommendation:
 * `get_program_description` and `get_course_advice` (main.py, lines 56-69
 * and 83-100).
 */
module Lookup {
  import opened Results
  import opened PyStr

  // ---------------------------------------------------------------------
  // Program descriptions
  // ---------------------------------------------------------------------

  /** The description table, in declared order. */
  const ProgramDescriptions: seq<(string, string)> := [
    ("Informatika", "Mempelajari pengembangan software, teknologi jaringan, dan komputasi cerdas."),
    ("Sistem Informasi", "Menggabungkan ilmu komputer dengan manajemen bisnis untuk sistem perusahaan."),
    ("Manajemen", "Fokus pada pengelolaan bisnis, strategi pemasaran, dan kepemimpinan."),
    ("Akuntansi", "Ahli dalam pencatatan, analisis, dan pelaporan keuangan bisnis."),
    ("Ilmu Komunikasi", "Strategi penyampaian pesan efektif melalui media digital dan humas."),
    ("Hospitality dan Pariwisata", "Menyiapkan profesional perhotelan, kuliner, dan manajemen wisata."),
    ("Desain Komunikasi Visual", "Solusi komunikasi visual yang kreatif, artistik, dan inovatif."),
    ("Bahasa Inggris", "Komunikasi profesional global melalui bahasa dan budaya."),
    ("Bahasa Mandarin", "Bahasa dan budaya Tiongkok untuk bisnis internasional."),
    ("Bisnis Digital", "Teknologi digital dalam strategi bisnis modern."),
    ("Data Science", "Mengolah Big Data menjadi wawasan untuk prediksi."),
    ("Psikologi", "Mempelajari perilaku manusia dan proses mental.")
  ]

  /** What is shown for a program no key matches. */
  const DefaultDescription: string := "Jurusan unggulan pencetak profesional handal."

  /** The index of the first entry, in table order, whose key occurs in `text`. */
  function FirstKeyIn(table: seq<(string, string)>, text: string): (r: Option<nat>)
    ensures r.Some? ==> r.value < |table| && Contains(text, table[r.value].0)
    ensures r.Some? ==> forall j :: 0 <= j < r.value ==> !Contains(text, table[j].0)
    ensures r.None? ==> forall j :: 0 <= j < |table| ==> !Contains(text, table[j].0)
  {
    if |table| == 0 then None
    else if Contains(text, table[0].0) then Some(0)
    else match FirstKeyIn(table[1..], text)
      case None => None
      case Some(i) => Some(i + 1)
  }

  /** The value of the first key, in table order, that is a substring of `text`,
      or `default` when none is. */
  function FirstValueIn(table: seq<(string, string)>, text: string, default: string): (v: string)
    ensures (forall j :: 0 <= j < |table| ==> !Contains(text, table[j].0)) ==> v == default
    ensures forall i :: 0 <= i < |table| ==>
      (Contains(text, table[i].0) && forall j :: 0 <= j < i ==> !Contains(text, table[j].0))
      ==> v == table[i].1
  {
    match FirstKeyIn(table, text)
    case None => default
    case Some(i) => table[i].1
  }

  /** `get_program_description`: matching is case-sensitive and against the
      program name as given. */
  function ProgramDescription(program: string): string {
    FirstValueIn(ProgramDescriptions, program, DefaultDescription)
  }

  // ---------------------------------------------------------------------
  // Course advice
  // ---------------------------------------------------------------------

  /** The advice categories, in the order they are tried. */
  datatype Category = Numeric | Coding | Design | Business | General

  const NumericWords: seq<string> := ["matematika", "statistik", "akuntansi", "keuangan"]
  const CodingWords: seq<string> := ["coding", "algoritma", "data", "web"]
  const DesignWords: seq<string> := ["desain", "gambar", "art", "sketsa"]
  const BusinessWords: seq<string> := ["bisnis", "manajemen", "marketing"]

  /** `any(x in text for x in words)`. */
  predicate MentionsAny(text: string, words: seq<string>) {
    exists i :: 0 <= i < |words| && Contains(text, words[i])
  }

  /** The category whose words the lower-cased course name mentions first in
      priority order: numeric, then coding, then design, then business. */
  function AdviceCategory(course: string): (c: Category)
    ensures c == Numeric <==> MentionsAny(Lower(course), NumericWords)
    ensures c == Coding <==> (
      && !MentionsAny(Lower(course), NumericWords)
      && MentionsAny(Lower(course), CodingWords))
    ensures c == Design <==> (
      && !MentionsAny(Lower(course), NumericWords)
      && !MentionsAny(Lower(course), CodingWords)
      && MentionsAny(Lower(course), DesignWords))
    ensures c == Business <==> (
      && !MentionsAny(Lower(course), NumericWords)
      && !MentionsAny(Lower(course), CodingWords)
      && !MentionsAny(Lower(course), DesignWords)
      && MentionsAny(Lower(course), BusinessWords))
    ensures c == General <==> (
      && !MentionsAny(Lower(course), NumericWords)
      && !MentionsAny(Lower(course), CodingWords)
      && !MentionsAny(Lower(course), DesignWords)
      && !MentionsAny(Lower(course), BusinessWords))
  {
    var name := Lower(course);
    if MentionsAny(name, NumericWords) then Numeric
    else if MentionsAny(name, CodingWords) then Coding
    else if MentionsAny(name, DesignWords) then Design
    else if MentionsAny(name, BusinessWords) then Business
    else General
  }

  /** The tip text of each category. */
  function Tip(c: Category): string {
    match c
    case Numeric => "\U{1F4A1} **Tips:** Pahami konsep dasar, jangan cuma hafal rumus. Latihan soal kuncinya!"
    case Coding => "\U{1F4BB} **Tips:** Praktek langsung (ngoding) lebih efektif daripada baca teori. Jangan takut error!"
    case Design => "\U{1F3A8} **Tips:** Perbanyak lihat referensi (Pinterest/Behance) dan bangun portofolio."
    case Business => "\U{1F4CA} **Tips:** Pelajari studi kasus nyata perusahaan dan latih skill presentasi."
    case General => "\U{1F4DD} **Tips:** Catat poin penting dosen dan aktif bertanya di kelas."
  }

  /** `get_course_advice(course)['tip']`. */
  function CourseAdvice(course: string): string {
    Tip(AdviceCategory(course))
  }

  /** Advice ignores letter case: names that lower-case alike get the same tip. */
  lemma AdviceIgnoresCase(a: string, b: string)
    requires Lower(a) == Lower(b)
    ensures CourseAdvice(a) == CourseAdvice(b)
  {
  }

  /** Advice for a name is advice for its lower-cased form. */
  lemma AdviceOfLowered(course: string)
    ensures CourseAdvice(Lower(course)) == CourseAdvice(course)
  {
    LowerIdempotent(course);
  }
}

=== FILE: pystr.dfy ===
/**
 * The Python `str` operations the query pipeline relies on, on `seq<char>`:
 * `in`, `find`, `split(sep)`, `sep.join`, `replace`, `strip`, `split()`
 * and `lower()` (over ASCII).
 */
module PyStr {
  import opened Results

  // ---------------------------------------------------------------------
  // Lower-casing
  // ---------------------------------------------------------------------

  predicate IsUpper(c: char) {
    'A' <= c <= 'Z'
  }

  function LowerChar(c: char): char {
    if IsUpper(c) then (c as int + 32) as char else c
  }

  /** `s.lower()` restricted to ASCII letters. */
  function Lower(s: string): (r: string)
    ensures |r| == |s|
    ensures forall i :: 0 <= i < |r| ==> !IsUpper(r[i])
    ensures forall i :: 0 <= i < |s| && !IsUpper(s[i]) ==> r[i] == s[i]
    ensures forall i :: 0 <= i < |s| && IsUpper(s[i]) ==> r[i] as int == s[i] as int + 32
  {
    seq(|s|, i requires 0 <= i < |s| => LowerChar(s[i]))
  }

  lemma LowerIdempotent(s: string)
    ensures Lower(Lower(s)) == Lower(s)
  {
  }

  // ---------------------------------------------------------------------
  // Substring search
  // ---------------------------------------------------------------------

  /** `w` occurs in `s` starting at index `i`. */
  predicate OccursAt(s: string, w: string, i: int) {
    0 <= i && i + |w| <= |s| && s[i..i + |w|] == w
  }

  /** `s.find(w, k)`: the first occurrence of `w` at or after index `k`. */
  function Find(s: string, w: string, k: nat): (r: Option<nat>)
    ensures r.Some? ==> k <= r.value && OccursAt(s, w, r.value)
    ensures r.Some? ==> forall j :: k <= j < r.value ==> !OccursAt(s, w, j)
    ensures r.None? ==> forall j :: k <= j ==> !OccursAt(s, w, j)
    decreases |s| - k
  {
    if k + |w| > |s| then None
    else if s[k..k + |w|] == w then Some(k)
    else Find(s, w, k + 1)
  }

  /** Python's `w in s`. */
  predicate Contains(s: string, w: string) {
    Find(s, w, 0).Some?
  }

  /** `w in s` holds exactly when `w` occurs somewhere in `s`. */
  lemma ContainsOccurs(s: string, w: string)
    ensures Contains(s, w) <==> exists i :: OccursAt(s, w, i)
  {
    var r := Find(s, w, 0);
    if r.Some? {
      assert OccursAt(s, w, r.value);
    }
  }

  /** Any occurrence makes `w in s` true. */
  lemma OccursContains(s: string, w: string, i: int)
    requires OccursAt(s, w, i)
    ensures Contains(s, w)
  {
    ContainsOccurs(s, w);
  }

  /** A string spliced into another is contained in the result. */
  lemma SplicedContains(s: string, a: string, w: string, b: string)
    ensures Contains(s + (a + w + b), w)
  {
    var pre := s + a;
    var e := s + (a + w + b);
    assert e == pre + w + b;
    assert e[|pre|..|pre| + |w|] == w;
    OccursContains(e, w, |pre|);
  }

  /** An occurrence in a slice is an occurrence in the whole string, shifted. */
  lemma OccursInSlice(s: string, w: string, a: nat, b: nat, j: int)
    requires a <= b <= |s|
    requires 0 <= j
    ensures OccursAt(s[a..b], w, j) <==> (OccursAt(s, w, a + j) && j + |w| <= b - a)
  {
    if j + |w| <= b - a {
      forall k | j <= k < j + |w|
        ensures s[a..b][k] == s[a + k]
      {
      }
      assert s[a..b][j..j + |w|] == s[a + j..a + j + |w|];
    }
  }

  // ---------------------------------------------------------------------
  // split(sep), sep.join(parts), replace
  // ---------------------------------------------------------------------

  /** `s.split(sep)`: the pieces between successive non-overlapping occurrences. */
  function Split(s: string, sep: string): (parts: seq<string>)
    requires |sep| > 0
    ensures |parts| >= 1
    decreases |s|
  {
    match Find(s, sep, 0)
    case None => [s]
    case Some(i) => [s[..i]] + Split(s[i + |sep|..], sep)
  }

  /** `sep.join(parts)`. */
  function Join(parts: seq<string>, sep: string): string {
    if |parts| == 0 then ""
    else if |parts| == 1 then parts[0]
    else parts[0] + sep + Join(parts[1..], sep)
  }

  /** `s.count(w)`: the number of non-overlapping occurrences, scanning left to right. */
  function Count(s: string, w: string): nat
    requires |w| > 0
  {
    |Split(s, w)| - 1
  }

  /** `s.replace(w, v)`: every non-overlapping occurrence, left to right, becomes `v`. */
  function Replace(s: string, w: string, v: string): (r: string)
    requires |w| > 0
    ensures |v| == 0 ==> |r| <= |s|
    ensures |v| == |w| ==> |r| == |s|
    decreases |s|
  {
    if |s| < |w| then s
    else if s[..|w|] == w then v + Replace(s[|w|..], w, v)
    else [s[0]] + Replace(s[1..], w, v)
  }

  /** Joining the pieces of a split with the separator gives the string back. */
  lemma {:induction false} SplitJoin(s: string, sep: string)
    requires |sep| > 0
    ensures Join(Split(s, sep), sep) == s
    decreases |s|
  {
    var f := Find(s, sep, 0);
    if f.Some? {
      var i := f.value;
      var rest := s[i + |sep|..];
      var tail := Split(rest, sep);
      SplitJoin(rest, sep);
      var parts := Split(s, sep);
      assert parts == [s[..i]] + tail;
      assert parts[1..] == tail;
      assert Join(parts, sep) == s[..i] + sep + Join(tail, sep);
      assert s[i..i + |sep|] == sep;
      assert s == s[..i] + s[i..i + |sep|] + rest;
    }
  }

  /** No piece of a split contains the separator. */
  lemma {:induction false} SplitPiecesFree(s: string, sep: string)
    requires |sep| > 0
    ensures forall k :: 0 <= k < |Split(s, sep)| ==> !Contains(Split(s, sep)[k], sep)
    decreases |s|
  {
    var parts := Split(s, sep);
    match Find(s, sep, 0)
    case None =>
      assert parts == [s];
    case Some(i) =>
      var rest := s[i + |sep|..];
      var tail := Split(rest, sep);
      SplitPiecesFree(rest, sep);
      assert parts == [s[..i]] + tail;
      forall j
        ensures !OccursAt(s[..i], sep, j)
      {
        if 0 <= j {
          OccursInSlice(s, sep, 0, i, j);
        }
      }
      ContainsOccurs(s[..i], sep);
      forall k | 0 <= k < |parts|
        ensures !Contains(parts[k], sep)
      {
        if k > 0 {
          assert parts[k] == tail[k - 1];
        }
      }
  }

  /** The number of pieces is one more than the number of occurrences found. */
  lemma CountPositive(s: string, w: string)
    requires |w| > 0
    ensures Contains(s, w) <==> Count(s, w) >= 1
  {
  }

  /** With no occurrence at the front, the first character is copied unchanged. */
  lemma ReplaceStep(s: string, w: string, v: string)
    requires |w| > 0
    requires |s| > 0 && !OccursAt(s, w, 0)
    ensures Replace(s, w, v) == [s[0]] + Replace(s[1..], w, v)
  {
    if |s| < |w| {
      assert Replace(s[1..], w, v) == s[1..];
      assert [s[0]] + s[1..] == s;
    } else {
      assert s[..|w|] != w;
    }
  }

  /** Scanning past a prefix that holds no occurrence copies it unchanged. */
  lemma {:induction false} ReplaceSkip(s: string, w: string, v: string, i: nat)
    requires |w| > 0
    requires i <= |s|
    requires forall j :: 0 <= j < i ==> !OccursAt(s, w, j)
    ensures Replace(s, w, v) == s[..i] + Replace(s[i..], w, v)
    decreases i
  {
    if i == 0 {
      assert s[..0] + s[0..] == s;
    } else {
      assert !OccursAt(s, w, 0);
      ReplaceStep(s, w, v);
      var t := s[1..];
      forall j | 0 <= j < i - 1
        ensures !OccursAt(t, w, j)
      {
        OccursInSlice(s, w, 1, |s|, j);
      }
      ReplaceSkip(t, w, v, i - 1);
      assert t[i - 1..] == s[i..];
      ConsPrefix(s, i);
      AppendAssoc([s[0]], t[..i - 1], Replace(s[i..], w, v));
    }
  }

  lemma ConsPrefix(s: string, i: nat)
    requires 0 < i <= |s|
    ensures [s[0]] + s[1..][..i - 1] == s[..i]
  {
  }

  lemma AppendAssoc(a: string, b: string, c: string)
    ensures a + (b + c) == (a + b) + c
  {
  }

  /** Python's identity `s.replace(w, v) == v.join(s.split(w))`. */
  lemma {:induction false} ReplaceIsJoinOfSplit(s: string, w: string, v: string)
    requires |w| > 0
    ensures Replace(s, w, v) == Join(Split(s, w), v)
    decreases |s|
  {
    match Find(s, w, 0)
    case None =>
      ReplaceSkip(s, w, v, |s|);
      assert s[..|s|] == s;
      assert Replace(s[|s|..], w, v) == "";
    case Some(i) =>
      ReplaceSkip(s, w, v, i);
      var u := s[i..];
      var rest := s[i + |w|..];
      assert u[..|w|] == w;
      assert u[|w|..] == rest;
      assert Replace(u, w, v) == v + Replace(rest, w, v);
      ReplaceIsJoinOfSplit(rest, w, v);
      var parts := Split(s, w);
      var tail := Split(rest, w);
      assert parts == [s[..i]] + tail;
      assert parts[1..] == tail;
      assert Join(parts, v) == s[..i] + v + Join(tail, v);
      AppendAssoc(s[..i], v, Replace(rest, w, v));
  }

  function SumLen(parts: seq<string>): nat {
    if |parts| == 0 then 0 else |parts[0]| + SumLen(parts[1..])
  }

  lemma {:induction false} JoinLength(parts: seq<string>, sep: string)
    requires |parts| >= 1
    ensures |Join(parts, sep)| == SumLen(parts) + |sep| * (|parts| - 1)
    decreases |parts|
  {
    if |parts| > 1 {
      JoinLength(parts[1..], sep);
    }
  }

  /** Replacing changes the length by `|v| - |w|` for every occurrence counted. */
  lemma ReplaceLength(s: string, w: string, v: string)
    requires |w| > 0
    ensures |Replace(s, w, v)| + |w| * Count(s, w) == |s| + |v| * Count(s, w)
  {
    var parts := Split(s, w);
    var n := Count(s, w);
    assert n == |parts| - 1;
    var total := SumLen(parts);
    SplitJoin(s, w);
    JoinLength(parts, w);
    assert |s| == total + |w| * n;
    ReplaceIsJoinOfSplit(s, w, v);
    JoinLength(parts, v);
    assert |Replace(s, w, v)| == total + |v| * n;
  }

  /** Replacing a pattern that does not occur leaves the string unchanged. */
  lemma ReplaceAbsent(s: string, w: string, v: string)
    requires |w| > 0
    requires !Contains(s, w)
    ensures Replace(s, w, v) == s
  {
    ReplaceIsJoinOfSplit(s, w, v);
  }

  /** Deleting every occurrence can create a new one where the pieces meet:
      "aabb" without "ab" is "ab". */
  lemma DeletionCanSplice()
    ensures Contains("aabb", "ab")
    ensures Replace("aabb", "ab", "") == "ab"
    ensures Contains(Replace("aabb", "ab", ""), "ab")
  {
    var s: string := "aabb";
    assert s[0..2] != "ab" by { assert s[1] == 'a'; }
    assert s[1..3] == "ab";
    assert OccursAt(s, "ab", 1);
    assert Replace(s[3..], "ab", "") == "b";
    assert s[1..][..2] == "ab";
    assert Replace(s[1..], "ab", "") == "" + Replace(s[3..], "ab", "");
    assert Replace(s, "ab", "") == [s[0]] + Replace(s[1..], "ab", "");
    var r: string := "ab";
    assert OccursAt(r, "ab", 0);
  }

  // ---------------------------------------------------------------------
  // Whitespace: strip() and split()
  // ---------------------------------------------------------------------

  /** `c.isspace()` over ASCII: tab, newline, vertical tab, form feed,
      carriage return, the four separators 0x1C-0x1F and space. */
  predicate IsSpace(c: char) {
    var n := c as int;
    n == 32 || 9 <= n <= 13 || 28 <= n <= 31
  }

  predicate AllSpace(s: string) {
    forall i :: 0 <= i < |s| ==> IsSpace(s[i])
  }

  predicate NoSpace(s: string) {
    forall i :: 0 <= i < |s| ==> !IsSpace(s[i])
  }

  /** `s.lstrip()`. */
  function TrimStart(s: string): (r: string)
    ensures |r| <= |s| && r == s[|s| - |r|..]
    ensures AllSpace(s[..|s| - |r|])
    ensures r == [] || !IsSpace(r[0])
  {
    if |s| > 0 && IsSpace(s[0]) then
      var r := TrimStart(s[1..]);
      assert s[1..][..|s| - 1 - |r|] == s[1..|s| - |r|];
      r
    else s
  }

  /** `s.rstrip()`. */
  function TrimEnd(s: string): (r: string)
    ensures |r| <= |s| && r == s[..|r|]
    ensures AllSpace(s[|r|..])
    ensures r == [] || !IsSpace(r[|r| - 1])
  {
    if |s| > 0 && IsSpace(s[|s| - 1]) then
      var r := TrimEnd(s[..|s| - 1]);
      assert s[|r|..] == s[..|s| - 1][|r|..] + [s[|s| - 1]];
      r
    else s
  }

  /** `s.strip()`. */
  function Strip(s: string): string {
    TrimEnd(TrimStart(s))
  }

  /** Length of the run of non-whitespace characters that begins `s`. */
  function TokenLen(s: string): (n: nat)
    ensures n <= |s|
    ensures NoSpace(s[..n])
    ensures n == |s| || IsSpace(s[n])
  {
    if |s| > 0 && !IsSpace(s[0]) then 1 + TokenLen(s[1..]) else 0
  }

  /** `s.split()`: the maximal runs of non-whitespace characters, in order. */
  function Words(s: string): seq<string>
    decreases |s|
  {
    var t := TrimStart(s);
    if |t| == 0 then []
    else
      var n := TokenLen(t);
      [t[..n]] + Words(t[n..])
  }

  /** Every word of `split()` is non-empty and holds no whitespace. */
  lemma {:induction false} WordsShape(s: string)
    ensures forall k :: 0 <= k < |Words(s)| ==> |Words(s)[k]| > 0 && NoSpace(Words(s)[k])
    decreases |s|
  {
    var t := TrimStart(s);
    if |t| == 0 {
      assert Words(s) == [];
    } else {
      var n := TokenLen(t);
      assert n > 0 by { assert !IsSpace(t[0]); }
      var rest := Words(t[n..]);
      WordsShape(t[n..]);
      var ws := [t[..n]] + rest;
      assert Words(s) == ws;
      forall k | 0 <= k < |ws|
        ensures |ws[k]| > 0 && NoSpace(ws[k])
      {
        if k > 0 {
          assert ws[k] == rest[k - 1];
        }
      }
    }
  }

  /** `s` with its whitespace characters removed. */
  function DropSpaces(s: string): string {
    if |s| == 0 then ""
    else (if IsSpace(s[0]) then "" else [s[0]]) + DropSpaces(s[1..])
  }

  lemma {:induction false} DropSpacesAppend(a: string, b: string)
    ensures DropSpaces(a + b) == DropSpaces(a) + DropSpaces(b)
    decreases |a|
  {
    if |a| > 0 {
      assert (a + b)[0] == a[0];
      assert (a + b)[1..] == a[1..] + b;
      DropSpacesAppend(a[1..], b);
    } else {
      assert a + b == b;
    }
  }

  lemma {:induction false} DropSpacesAllSpace(s: string)
    requires AllSpace(s)
    ensures DropSpaces(s) == ""
    decreases |s|
  {
    if |s| > 0 {
      DropSpacesAllSpace(s[1..]);
    }
  }

  lemma {:induction false} DropSpacesNoSpace(s: string)
    requires NoSpace(s)
    ensures DropSpaces(s) == s
    decreases |s|
  {
    if |s| > 0 {
      DropSpacesNoSpace(s[1..]);
      assert s == [s[0]] + s[1..];
    }
  }

  /** `split()` finds no word exactly when `s` is all whitespace. */
  lemma WordsEmpty(s: string)
    ensures Words(s) == [] <==> AllSpace(s)
  {
    var t := TrimStart(s);
    if |t| == 0 {
      assert s[..|s|] == s;
    } else {
      assert s[|s| - |t|] == t[0];
    }
  }

  /** Leading whitespace contributes nothing once whitespace is removed. */
  lemma DropSpacesTrim(s: string)
    ensures DropSpaces(s) == DropSpaces(TrimStart(s))
  {
    var t := TrimStart(s);
    var pre := s[..|s| - |t|];
    assert s == pre + t;
    DropSpacesAllSpace(pre);
    DropSpacesAppend(pre, t);
  }

  /** A word followed by the rest: removing whitespace keeps the word whole. */
  lemma DropSpacesWord(t: string, n: nat)
    requires n <= |t| && NoSpace(t[..n])
    ensures DropSpaces(t) == t[..n] + DropSpaces(t[n..])
  {
    assert t == t[..n] + t[n..];
    DropSpacesAppend(t[..n], t[n..]);
    DropSpacesNoSpace(t[..n]);
  }

  /** The words of `split()`, in order and glued together, are the characters
      of `s` with its whitespace removed. */
  lemma {:induction false} WordsConcat(s: string)
    ensures Join(Words(s), "") == DropSpaces(s)
    decreases |s|
  {
    var t := TrimStart(s);
    DropSpacesTrim(s);
    if |t| > 0 {
      var n := TokenLen(t);
      var rest := Words(t[n..]);
      assert Words(s) == [t[..n]] + rest;
      WordsConcat(t[n..]);
      DropSpacesWord(t, n);
      JoinCons(t[..n], rest);
    }
  }

  lemma JoinCons(word: string, rest: seq<string>)
    ensures Join([word] + rest, "") == word + Join(rest, "")
  {
    if rest != [] {
      assert ([word] + rest)[1..] == rest;
    }
  }
}

=== FILE: query.dfy ===
/**
 * Query understanding in `main_app` (main.py, lines 173-188): the raw query is
 * lower-cased, the first token after each negation marker's first occurrence is
 * deleted wherever it occurs, and the result
 * is expanded with the domain terms of every interest keyword it mentions.
 */
module Query {
  import opened Results
  import opened PyStr

  // ---------------------------------------------------------------------
  // Negation stripping
  // ---------------------------------------------------------------------

  /** The negation markers, in the order the loop visits them. */
  const NegationMarkers: seq<string> := ["tidak suka", "benci", "gak suka", "anti"]

  /** The text after the first occurrence of `neg`, up to its next occurrence or the end. */
  function Segment(q: string, neg: string): string {
    match Find(q, neg, 0)
    case None => ""
    case Some(i) =>
      match Find(q, neg, i + |neg|)
      case None => q[i + |neg|..]
      case Some(j) => q[i + |neg|..j]
  }

  /** `w` is the first whitespace-delimited token of `seg`. */
  ghost predicate StartsWithToken(seg: string, w: string) {
    && |w| > 0
    && NoSpace(w)
    && exists k :: 0 <= k && k + |w| <= |seg| && AllSpace(seg[..k]) && seg[k..k + |w|] == w
         && (k + |w| == |seg| || IsSpace(seg[k + |w|]))
  }

  /** `Find` started later in the string finds the same occurrence, shifted. */
  lemma FindShift(s: string, w: string, m: nat)
    requires m <= |s|
    ensures Find(s[m..], w, 0).None? <==> Find(s, w, m).None?
    ensures Find(s[m..], w, 0).Some? ==> Find(s, w, m).value == Find(s[m..], w, 0).value + m
  {
    var r := Find(s[m..], w, 0);
    var r' := Find(s, w, m);
    assert s[m..|s|] == s[m..];
    if r.Some? {
      OccursInSlice(s, w, m, |s|, r.value);
      forall j | m <= j < m + r.value
        ensures !OccursAt(s, w, j)
      {
        OccursInSlice(s, w, m, |s|, j - m);
      }
    }
    if r'.Some? {
      OccursInSlice(s, w, m, |s|, r'.value - m);
      forall j | 0 <= j < r'.value - m
        ensures !OccursAt(s[m..], w, j)
      {
        OccursInSlice(s, w, m, |s|, j);
      }
    }
  }

  /** The first piece of a split runs up to the first occurrence, or is the whole string. */
  lemma SplitHead(s: string, sep: string)
    requires |sep| > 0
    ensures Find(s, sep, 0).None? ==> Split(s, sep) == [s]
    ensures Find(s, sep, 0).Some? ==> Split(s, sep)[0] == s[..Find(s, sep, 0).value]
  {
  }

  /** The first piece of `q[m..].split(neg)` runs up to the next marker at or after `m`. */
  lemma SplitHeadFrom(q: string, neg: string, m: nat)
    requires |neg| > 0
    requires m <= |q|
    ensures Find(q, neg, m).None? ==> Split(q[m..], neg)[0] == q[m..]
    ensures Find(q, neg, m).Some? ==> Split(q[m..], neg)[0] == q[m..Find(q, neg, m).value]
  {
    var rest := q[m..];
    FindShift(q, neg, m);
    SplitHead(rest, neg);
    if Find(q, neg, m).Some? {
      var j := Find(q, neg, m).value;
      assert Find(rest, neg, 0).value == j - m;
      assert rest[..j - m] == q[m..j];
    }
  }

  /** When the marker occurs, `q.split(neg)` has a second piece and it is the segment
      after the first occurrence: the `len(parts) > 1` guard always passes. */
  lemma SecondPiece(q: string, neg: string)
    requires |neg| > 0
    requires Contains(q, neg)
    ensures |Split(q, neg)| >= 2
    ensures Split(q, neg)[1] == Segment(q, neg)
  {
    var i := Find(q, neg, 0).value;
    var m := i + |neg|;
    var parts := Split(q, neg);
    assert parts == [q[..i]] + Split(q[m..], neg);
    assert parts[1] == Split(q[m..], neg)[0];
    SplitHeadFrom(q, neg, m);
  }

  /** `seg.strip()` is `seg` with a whitespace run cut from each end. */
  lemma StripBounds(seg: string) returns (k: nat, t: string)
    ensures t == Strip(seg)
    ensures k + |t| <= |seg| && t == seg[k..k + |t|]
    ensures AllSpace(seg[..k]) && AllSpace(seg[k + |t|..])
    ensures t == [] || !IsSpace(t[0])
  {
    var u := TrimStart(seg);
    k := |seg| - |u|;
    t := TrimEnd(u);
    assert AllSpace(seg[..k]);
    assert t == u[..|t|];
    assert u[..|t|] == seg[k..k + |t|];
    assert AllSpace(u[|t|..]);
    assert u[|t|..] == seg[k + |t|..];
    if |t| > 0 {
      assert t[0] == u[0];
    }
  }

  /** `seg.strip()` is empty exactly when `seg` is all whitespace. */
  lemma StripEmpty(seg: string)
    ensures Strip(seg) == [] <==> AllSpace(seg)
  {
    var k, t := StripBounds(seg);
    if |t| == 0 {
      forall i | 0 <= i < |seg|
        ensures IsSpace(seg[i])
      {
        if i >= k {
          assert seg[i] == seg[k..][i - k];
        } else {
          assert seg[i] == seg[..k][i];
        }
      }
    } else {
      assert seg[k] == t[0];
    }
  }

  /** The first word of a string that starts with a non-space character. */
  lemma FirstWord(t: string)
    requires t != [] && !IsSpace(t[0])
    ensures Words(t) != [] && Words(t)[0] == t[..TokenLen(t)]
  {
    assert TrimStart(t) == t;
  }

  /** The first token of a string found inside its whitespace padding. */
  lemma PaddedToken(seg: string, t: string, k: nat, n: nat)
    requires k + |t| <= |seg| && t == seg[k..k + |t|]
    requires AllSpace(seg[..k]) && AllSpace(seg[k + |t|..])
    requires 0 < n <= |t| && NoSpace(t[..n])
    requires n == |t| || IsSpace(t[n])
    ensures StartsWithToken(seg, t[..n])
  {
    var w := t[..n];
    assert w == seg[k..k + n];
    if n < |t| {
      assert seg[k + n] == t[n];
    } else if k + n < |seg| {
      assert seg[k + n] == seg[k + |t|..][0];
    }
  }

  /** `seg.strip().split()` is empty exactly when `seg` is all whitespace. */
  lemma NoWordsIffBlank(seg: string)
    ensures Words(Strip(seg)) == [] <==> AllSpace(seg)
  {
    var t := Strip(seg);
    StripEmpty(seg);
    if |t| == 0 {
      assert TrimStart(t) == [];
    } else {
      FirstWord(t);
    }
  }

  /** The first word of `seg.strip().split()` is the first token of `seg`. */
  lemma FirstWordIsToken(seg: string)
    requires !AllSpace(seg)
    ensures Words(Strip(seg)) != [] && StartsWithToken(seg, Words(Strip(seg))[0])
  {
    NoWordsIffBlank(seg);
    var k, t := StripBounds(seg);
    WordsEmpty(t);
    assert !AllSpace(t);
    FirstWord(t);
    PaddedToken(seg, t, k, TokenLen(t));
  }

  /** `seg.strip().split()[0]`: an empty word list raises IndexError. */
  function FirstToken(seg: string): (r: Result<string>)
    ensures r.Err? <==> AllSpace(seg)
    ensures r.Ok? ==> StartsWithToken(seg, r.value)
  {
    NoWordsIffBlank(seg);
    var words := Words(Strip(seg));
    if |words| == 0 then Err(IndexError)
    else
      FirstWordIsToken(seg);
      Ok(words[0])
  }

  /** One iteration of the negation loop, for marker `neg`. */
  function StripMarker(q: string, neg: string): (r: Result<string>)
    requires |neg| > 0
    ensures !Contains(q, neg) ==> r == Ok(q)
    ensures Contains(q, neg) ==> (r.Err? <==> AllSpace(Segment(q, neg)))
    ensures Contains(q, neg) && r.Ok? ==>
      exists w :: StartsWithToken(Segment(q, neg), w) && r.value == Replace(q, w, "")
  {
    if !Contains(q, neg) then Ok(q)
    else
      var parts := Split(q, neg);
      SecondPiece(q, neg);
      if |parts| > 1 then
        match FirstToken(parts[1])
        case Err(e) => Err(e)
        case Ok(w) => Ok(Replace(q, w, ""))
      else Ok(q)
  }

  /** A marker whose first occurrence ends the query ("saya benci") leaves
      nothing to take the first word of, so the step raises IndexError. */
  lemma MarkerAtEndCrashes(q: string, neg: string)
    requires |neg| > 0 && |neg| <= |q|
    requires Find(q, neg, 0) == Some(|q| - |neg|)
    ensures StripMarker(q, neg) == Err(IndexError)
  {
    assert Segment(q, neg) == [];
  }

  /** A blank segment makes the step raise IndexError. */
  lemma BlankSegmentCrashes(q: string, neg: string)
    requires |neg| > 0
    requires Contains(q, neg) && AllSpace(Segment(q, neg))
    ensures StripMarker(q, neg) == Err(IndexError)
  {
  }

  /** When the marker occurs again, the segment ends at that next occurrence. */
  lemma SegmentToNext(q: string, neg: string)
    requires Contains(q, neg)
    ensures var m := Find(q, neg, 0).value + |neg|;
      Find(q, neg, m).Some? ==> Segment(q, neg) == q[m..Find(q, neg, m).value]
  {
  }

  /** A marker repeated with only whitespace in between ("benci benci x") leaves a
      blank second piece, so the step raises IndexError although a word follows later. */
  lemma MarkerRepeatedCrashes(q: string, neg: string, i: nat, j: nat)
    requires |neg| > 0
    requires Find(q, neg, 0) == Some(i)
    requires Find(q, neg, i + |neg|) == Some(j)
    requires AllSpace(q[i + |neg|..j])
    ensures StripMarker(q, neg) == Err(IndexError)
  {
    SegmentToNext(q, neg);
    var seg := q[i + |neg|..j];
    assert Segment(q, neg) == seg;
    BlankSegmentCrashes(q, neg);
  }

  lemma SegmentSlice(q: string, neg: string) returns (a: nat, b: nat)
    requires Contains(q, neg)
    ensures a <= b <= |q| && Segment(q, neg) == q[a..b]
  {
    var i := Find(q, neg, 0).value;
    a := i + |neg|;
    match Find(q, neg, a)
    case None => b := |q|;
    case Some(j) => b := j;
  }

  lemma TokenOccurs(seg: string, w: string) returns (k: nat)
    requires StartsWithToken(seg, w)
    ensures OccursAt(seg, w, k)
  {
    k :| 0 <= k && k + |w| <= |seg| && AllSpace(seg[..k]) && seg[k..k + |w|] == w
      && (k + |w| == |seg| || IsSpace(seg[k + |w|]));
  }

  /** The deletion a marker performs. The first token `w` after the marker
      occurs in the query; every non-overlapping occurrence of `w`, scanning left
      to right, is removed: cutting the query at the occurrences of `w` and
      gluing the pieces back with `w` gives the query, gluing them with nothing
      gives the result, and the length drops by `|w|` for each of the (at least
      one) cuts. */
  lemma MarkerDeletesToken(q: string, neg: string) returns (w: string)
    requires |neg| > 0
    requires Contains(q, neg)
    requires !AllSpace(Segment(q, neg))
    ensures StartsWithToken(Segment(q, neg), w) && Contains(q, w)
    ensures StripMarker(q, neg) == Ok(Join(Split(q, w), ""))
    ensures Join(Split(q, w), w) == q
    ensures Count(q, w) >= 1
    ensures |StripMarker(q, neg).value| + |w| * Count(q, w) == |q|
    ensures |StripMarker(q, neg).value| < |q|
  {
    var seg := Segment(q, neg);
    SecondPiece(q, neg);
    w := FirstToken(seg).value;
    var r := Replace(q, w, "");
    assert StripMarker(q, neg) == Ok(r);
    var a, b := SegmentSlice(q, neg);
    var k := TokenOccurs(seg, w);
    OccursInSlice(q, w, a, b, k);
    ContainsOccurs(q, w);
    SplitJoin(q, w);
    ReplaceIsJoinOfSplit(q, w, "");
    ReplaceLength(q, w, "");
    CountPositive(q, w);
    MulAtLeast(|w|, Count(q, w));
  }

  lemma MulAtLeast(x: nat, c: nat)
    requires c >= 1
    ensures x * c >= x
  {
  }

  /** One marker step never lengthens the text. */
  lemma StripMarkerShrinks(q: string, neg: string)
    requires |neg| > 0
    requires StripMarker(q, neg).Ok?
    ensures |StripMarker(q, neg).value| <= |q|
  {
    if Contains(q, neg) {
      var _ := MarkerDeletesToken(q, neg);
    }
  }

  /** The negation loop: each marker works on the text left by the earlier
      ones. Deletion never lengthens the text. */
  function StripAll(q: string, markers: seq<string>): (r: Result<string>)
    requires forall k :: 0 <= k < |markers| ==> |markers[k]| > 0
    ensures r.Ok? ==> |r.value| <= |q|
    decreases |markers|
  {
    if |markers| == 0 then Ok(q)
    else
      match StripMarker(q, markers[0])
      case Err(e) => Err(e)
      case Ok(q') =>
        StripMarkerShrinks(q, markers[0]);
        StripAll(q', markers[1..])
  }

  /** Lower-case the query, then strip negated words (main.py, lines 173-182). */
  function Normalize(raw: string): (r: Result<string>)
    ensures r.Ok? ==> |r.value| <= |raw|
  {
    assert forall k :: 0 <= k < |NegationMarkers| ==> |NegationMarkers[k]| > 0;
    StripAll(Lower(raw), NegationMarkers)
  }

  /** Markers that do not occur leave the text alone. */
  lemma {:induction false} StripAllNoMarker(q: string, markers: seq<string>)
    requires forall k :: 0 <= k < |markers| ==> |markers[k]| > 0
    requires forall k :: 0 <= k < |markers| ==> !Contains(q, markers[k])
    ensures StripAll(q, markers) == Ok(q)
    decreases |markers|
  {
    if |markers| > 0 {
      StripAllNoMarker(q, markers[1..]);
    }
  }

  /** A query without any negation marker is only lower-cased. */
  lemma NormalizeWithoutMarker(raw: string)
    requires forall k :: 0 <= k < |NegationMarkers| ==> !Contains(Lower(raw), NegationMarkers[k])
    ensures Normalize(raw) == Ok(Lower(raw))
  {
    StripAllNoMarker(Lower(raw), NegationMarkers);
  }

  // ---------------------------------------------------------------------
  // Keyword expansion
  // ---------------------------------------------------------------------

  /** The interest keywords and their expansion terms, in declared order. */
  const KeywordMapping: seq<(string, string)> := [
    ("menggambar", "desain visual art seni fotografi kreatif sketsa ilustrasi grafis"),
    ("jualan", "marketing bisnis manajemen pemasaran retail sales perdagangan kewirausahaan"),
    ("ngoding", "teknologi informasi sistem komputer data algoritma programming python web"),
    ("hitung", "akuntansi statistika matematika ekonomi keuangan pajak finance analisis"),
    ("jalan-jalan", "pariwisata hospitality hotel tour travel guide tourism wisata"),
    ("masak", "food beverage tata boga kitchen pastry culinary"),
    ("game", "game development interactive design programming unity multimedia"),
    ("tidur", "santai istirahat kesehatan mental psikologi"),
    ("duit", "investasi keuangan bisnis entrepreneur kaya")
  ]

  /** What one table entry contributes for query `q`. */
  function Block(q: string, entry: (string, string)): string {
    if Contains(q, entry.0) then " " + entry.1 else ""
  }

  /** The text the loop appends, entry by entry, after `q`. */
  function Expansion(q: string, table: seq<(string, string)>): string {
    if |table| == 0 then ""
    else Expansion(q, table[..|table| - 1]) + Block(q, table[|table| - 1])
  }

  /** The expanded query (main.py, lines 185-188). */
  function Expand(q: string): (e: string)
    ensures |e| >= |q| && e[..|q|] == q
  {
    q + Expansion(q, KeywordMapping)
  }

  lemma {:induction false} ExpansionAppend(q: string, a: seq<(string, string)>, b: seq<(string, string)>)
    ensures Expansion(q, a + b) == Expansion(q, a) + Expansion(q, b)
    decreases |b|
  {
    if |b| > 0 {
      var b' := b[..|b| - 1];
      assert (a + b)[..|a + b| - 1] == a + b';
      ExpansionAppend(q, a, b');
    } else {
      assert a + b == a;
    }
  }

  /** Each table entry contributes its block exactly once, at its place in table
      order: its expansion if its key occurs in `q`, nothing otherwise. */
  lemma ExpansionAt(q: string, table: seq<(string, string)>, i: nat)
    requires i < |table|
    ensures Expansion(q, table) == Expansion(q, table[..i]) + Block(q, table[i]) + Expansion(q, table[i + 1..])
  {
    var pre := table[..i];
    var post := table[i + 1..];
    assert table == pre + [table[i]] + post;
    ExpansionAppend(q, pre + [table[i]], post);
    ExpansionAppend(q, pre, [table[i]]);
    assert Expansion(q, [table[i]]) == Block(q, table[i]) by {
      assert [table[i]][..0] == [];
    }
  }

  /** With no keyword in the query, expansion adds nothing. */
  lemma {:induction false} ExpansionNoMatch(q: string, table: seq<(string, string)>)
    requires forall k :: 0 <= k < |table| ==> !Contains(q, table[k].0)
    ensures Expansion(q, table) == ""
    decreases |table|
  {
    if |table| > 0 {
      ExpansionNoMatch(q, table[..|table| - 1]);
    }
  }

  /** Matching is against the query alone, never the text already appended:
      two queries that mention the same keywords get the same expansion. */
  lemma {:induction false} ExpansionDependsOnlyOnMatches(q1: string, q2: string, table: seq<(string, string)>)
    requires forall k :: 0 <= k < |table| ==> (Contains(q1, table[k].0) <==> Contains(q2, table[k].0))
    ensures Expansion(q1, table) == Expansion(q2, table)
    decreases |table|
  {
    if |table| > 0 {
      ExpansionDependsOnlyOnMatches(q1, q2, table[..|table| - 1]);
    }
  }

  /** The expanded query is the query, followed by the blocks of the matched keywords. */
  lemma ExpandNoMatch(q: string)
    requires forall k :: 0 <= k < |KeywordMapping| ==> !Contains(q, KeywordMapping[k].0)
    ensures Expand(q) == q
  {
    ExpansionNoMatch(q, KeywordMapping);
  }

  /** A mentioned key's whole expansion appears after `q`, for any table. */
  lemma ExpansionIncludesMatch(q: string, table: seq<(string, string)>, i: nat)
    requires i < |table|
    requires Contains(q, table[i].0)
    ensures Contains(q + Expansion(q, table), " " + table[i].1)
  {
    var w := " " + table[i].1;
    ExpansionAt(q, table, i);
    assert Block(q, table[i]) == w;
    SplicedContains(q, Expansion(q, table[..i]), w, Expansion(q, table[i + 1..]));
  }

  /** A mentioned keyword's whole expansion appears in the expanded query. */
  lemma ExpandIncludesMatch(q: string, i: nat)
    requires i < |KeywordMapping|
    requires Contains(q, KeywordMapping[i].0)
    ensures Contains(Expand(q), " " + KeywordMapping[i].1)
  {
    ExpansionIncludesMatch(q, KeywordMapping, i);
  }
}

=== FILE: ranking.dfy ===
/**
 * The ranking policy of `main_app` (main.py, line 206): keep the rows whose
 * similarity score is above 0.15, order them by descending score and take
 * the first five. The scores themselves come from outside.
 */
module Ranking {
  import opened Seqs
  import opened Catalog

  /** A row with its `Similarity Score`. */
  datatype Scored = Scored(course: Course, score: real)

  /** Scores must be strictly above this to be recommended. */
  const MinScore: real := 0.15

  /** At most this many rows are recommended. */
  const TopK: nat := 5

  /** The row mask `df['Similarity Score'] > 0.15`. */
  predicate Clears(m: Scored) {
    m.score > MinScore
  }

  ghost predicate SortedDesc(s: seq<Scored>) {
    forall i, j :: 0 <= i < j < |s| ==> s[i].score >= s[j].score
  }

  /** Places `x` into a descending sequence. */
  function Insert(x: Scored, s: seq<Scored>): (r: seq<Scored>)
    requires SortedDesc(s)
    ensures SortedDesc(r)
    ensures multiset(r) == multiset(s) + multiset{x}
    ensures |r| == |s| + 1
    ensures r[0] == x || (|s| > 0 && r[0] == s[0])
  {
    if |s| == 0 then [x]
    else if x.score >= s[0].score then [x] + s
    else
      var t := Insert(x, s[1..]);
      assert s == [s[0]] + s[1..];
      assert s[0].score >= t[0].score;
      [s[0]] + t
  }

  /** `sort_values(ascending=False)`: a descending permutation. pandas' default
      sort is not stable, so nothing is promised about the order of equal scores. */
  function SortDesc(s: seq<Scored>): (r: seq<Scored>)
    ensures SortedDesc(r)
    ensures multiset(r) == multiset(s)
    ensures |r| == |s|
  {
    if |s| == 0 then []
    else
      assert s == [s[0]] + s[1..];
      Insert(s[0], SortDesc(s[1..]))
  }

  function Min(a: nat, b: nat): nat {
    if a < b then a else b
  }

  /** In a descending sequence, everything after the cut scores at most what is before it. */
  lemma PrefixDominates(s: seq<Scored>, n: nat, m: Scored)
    requires SortedDesc(s) && n <= |s|
    requires m in multiset(s[n..])
    ensures forall i :: 0 <= i < n ==> m.score <= s[i].score
  {
    assert m in s[n..];
    var j :| 0 <= j < |s[n..]| && s[n..][j] == m;
    assert s[n + j] == m;
  }

  /** A prefix of a permutation of the passing rows is drawn from the input. */
  lemma PrefixFromInput(ms: seq<Scored>, sorted: seq<Scored>, n: nat)
    requires multiset(sorted) == multiset(Filter(ms, Clears))
    requires n <= |sorted|
    ensures multiset(sorted[..n]) <= multiset(ms)
  {
    FilterSubMultiset(ms, Clears);
    assert sorted == sorted[..n] + sorted[n..];
    assert multiset(sorted) == multiset(sorted[..n]) + multiset(sorted[n..]);
  }

  /** A passing row that did not make the cut scores at most every row that did. */
  lemma LeftOutScoresLower(ms: seq<Scored>, sorted: seq<Scored>, n: nat, m: Scored)
    requires SortedDesc(sorted)
    requires multiset(sorted) == multiset(Filter(ms, Clears))
    requires n <= |sorted|
    requires m in multiset(ms) - multiset(sorted[..n]) && Clears(m)
    ensures forall i :: 0 <= i < n ==> m.score <= sorted[i].score
  {
    FilterMultiplicity(ms, Clears);
    assert sorted == sorted[..n] + sorted[n..];
    assert multiset(sorted) == multiset(sorted[..n]) + multiset(sorted[n..]);
    assert multiset(sorted)[m] == multiset(ms)[m];
    assert m in multiset(sorted[n..]);
    PrefixDominates(sorted, n, m);
  }

  /** Every row of a permutation of the passing rows passes. */
  lemma AllClear(ms: seq<Scored>, sorted: seq<Scored>)
    requires multiset(sorted) == multiset(Filter(ms, Clears))
    ensures forall i :: 0 <= i < |sorted| ==> sorted[i].score > MinScore
  {
    forall i | 0 <= i < |sorted|
      ensures sorted[i].score > MinScore
    {
      assert sorted[i] in multiset(Filter(ms, Clears));
      assert sorted[i] in Filter(ms, Clears);
      assert Clears(sorted[i]);
    }
  }

  /** No row passes exactly when every score is at most the threshold. */
  lemma NonePass(ms: seq<Scored>)
    ensures |Filter(ms, Clears)| == 0 <==> forall i :: 0 <= i < |ms| ==> ms[i].score <= MinScore
  {
    if |Filter(ms, Clears)| > 0 {
      assert Filter(ms, Clears)[0] in ms;
    } else {
      forall i | 0 <= i < |ms|
        ensures ms[i].score <= MinScore
      {
        assert ms[i] in ms;
      }
    }
  }

  /** The recommendations (main.py, line 206): the passing rows in descending
      score order, cut after the fifth. */
  function Rank(ms: seq<Scored>): (recs: seq<Scored>)
    ensures |recs| <= TopK
  {
    var sorted := SortDesc(Filter(ms, Clears));
    sorted[..Min(TopK, |sorted|)]
  }

  /** What is recommended: rows drawn from the input, each scoring above 0.15. */
  lemma RankBounds(ms: seq<Scored>)
    ensures forall i :: 0 <= i < |Rank(ms)| ==> Rank(ms)[i].score > MinScore
    ensures multiset(Rank(ms)) <= multiset(ms)
  {
    var sorted := SortDesc(Filter(ms, Clears));
    var n := Min(TopK, |sorted|);
    assert Rank(ms) == sorted[..n];
    PrefixFromInput(ms, sorted, n);
    AllClear(ms, sorted);
  }

  /** How many: five, or every passing row when fewer than five pass; so nothing
      at all exactly when no row scores above 0.15. */
  lemma RankSize(ms: seq<Scored>)
    ensures |Rank(ms)| == Min(TopK, |Filter(ms, Clears)|)
    ensures Rank(ms) == [] <==> forall i :: 0 <= i < |ms| ==> ms[i].score <= MinScore
  {
    NonePass(ms);
  }

  /** In what order: descending by score, and the cut is a true top five: no
      passing row left out scores above a recommended one. */
  lemma RankOrder(ms: seq<Scored>)
    ensures SortedDesc(Rank(ms))
    ensures forall m :: m in multiset(ms) - multiset(Rank(ms)) && m.score > MinScore ==>
      forall i :: 0 <= i < |Rank(ms)| ==> m.score <= Rank(ms)[i].score
  {
    var sorted := SortDesc(Filter(ms, Clears));
    var n := Min(TopK, |sorted|);
    var recs := sorted[..n];
    assert Rank(ms) == recs;
    forall m | m in multiset(ms) - multiset(recs) && m.score > MinScore
      ensures forall i :: 0 <= i < n ==> m.score <= recs[i].score
    {
      LeftOutScoresLower(ms, sorted, n, m);
    }
  }
}

=== FILE: results.dfy ===
/** Failure-carrying values shared by the modules of the recommender model. */
module Results {

  datatype Option<+T> = None | Some(value: T)

  /** The Python exceptions the modelled code can raise. */
  datatype PyError =
    | IndexError  // `xs[0]` on an empty list

  /** The outcome of a computation that may raise a Python exception. */
  datatype Result<+T> = Ok(value: T) | Err(error: PyError)
}

=== FILE: seqs.dfy ===
/** Order-preserving selection on sequences: the row masks `df[mask]` of pandas. */
module Seqs {

  /** `s` with exactly the elements satisfying `p` kept, in their original order. */
  function Filter<T(!new)>(s: seq<T>, p: T -> bool): (r: seq<T>)
    ensures |r| <= |s|
    ensures forall x :: x in r <==> x in s && p(x)
  {
    if |s| == 0 then []
    else (if p(s[0]) then [s[0]] else []) + Filter(s[1..], p)
  }

  /** Every kept element is kept as many times as it occurs. */
  lemma {:induction false} FilterMultiplicity<T(!new)>(s: seq<T>, p: T -> bool)
    ensures forall x :: multiset(Filter(s, p))[x] == if p(x) then multiset(s)[x] else 0
    decreases |s|
  {
    if |s| > 0 {
      FilterMultiplicity(s[1..], p);
      assert s == [s[0]] + s[1..];
    }
  }

  /** Filtering only removes elements. */
  lemma {:induction false} FilterSubMultiset<T(!new)>(s: seq<T>, p: T -> bool)
    ensures multiset(Filter(s, p)) <= multiset(s)
    decreases |s|
  {
    if |s| > 0 {
      FilterSubMultiset(s[1..], p);
      assert s == [s[0]] + s[1..];
    }
  }

  /** `a` can be obtained from `b` by deleting elements: relative order is kept. */
  ghost predicate Subsequence<T>(a: seq<T>, b: seq<T>)
    decreases |b|
  {
    if |a| == 0 then true
    else if |b| == 0 then false
    else if a[0] == b[0] then Subsequence(a[1..], b[1..])
    else Subsequence(a, b[1..])
  }

  /** Filtering keeps the surviving elements in their original relative order. */
  lemma {:induction false} FilterIsSubsequence<T(!new)>(s: seq<T>, p: T -> bool)
    ensures Subsequence(Filter(s, p), s)
    decreases |s|
  {
    if |s| > 0 {
      FilterIsSubsequence(s[1..], p);
      var r := Filter(s, p);
      if p(s[0]) {
        assert r == [s[0]] + Filter(s[1..], p);
        assert r[1..] == Filter(s[1..], p);
      } else {
        assert r == Filter(s[1..], p);
        assert |r| > 0 ==> r[0] in r && r[0] != s[0];
      }
    }
  }

  /** Filtering with a predicate that every element satisfies changes nothing. */
  lemma {:induction false} FilterAll<T(!new)>(s: seq<T>, p: T -> bool)
    requires forall i :: 0 <= i < |s| ==> p(s[i])
    ensures Filter(s, p) == s
    decreases |s|
  {
    if |s| > 0 {
      FilterAll(s[1..], p);
    }
  }

  /** Filtering twice is filtering once with the conjunction of the two tests. */
  lemma {:induction false} FilterFilter<T(!new)>(s: seq<T>, p: T -> bool, q: T -> bool, both: T -> bool)
    requires forall x :: both(x) <==> p(x) && q(x)
    ensures Filter(Filter(s, p), q) == Filter(s, both)
    decreases |s|
  {
    if |s| > 0 {
      FilterFilter(s[1..], p, q, both);
      var f1 := Filter(s[1..], p);
      if p(s[0]) {
        var fp := [s[0]] + f1;
        assert Filter(s, p) == fp;
        assert fp[0] == s[0] && fp[1..] == f1;
        assert Filter(fp, q) == (if q(s[0]) then [s[0]] else []) + Filter(f1, q);
      } else {
        assert Filter(s, p) == f1;
      }
    }
  }

  /** Tests that agree on every element filter alike. */
  lemma {:induction false} FilterSameTest<T(!new)>(s: seq<T>, p: T -> bool, q: T -> bool)
    requires forall x :: p(x) <==> q(x)
    ensures Filter(s, p) == Filter(s, q)
    decreases |s|
  {
    if |s| > 0 {
      FilterSameTest(s[1..], p, q);
    }
  }
}
